=== FILE: README.md ===
# docute utilities: the extremum-group finders

A Dafny model of `findMin` and `findMax` from `src/utils/index.js`. Each
finder projects a named field out of every record of an array. It takes the
minimum (or maximum) of those values with `Math.min` (or `Math.max`). It then
returns, in their original order, all the records whose field is strictly
equal (`===`) to that extremum, ties included.

Three modules:

- `Sequences`: `Array.prototype.map` and `Array.prototype.filter` as the
  functions `Map` and `Filter` on immutable sequences. It also defines what an
  order-preserving selection is (`IsSelection`, `SelectsInOrder`) and proves
  that `Filter` is one.
- `JsMath`: the JavaScript values the finders see. A field read gives
  `undefined` or a number (`Value`). `Math.min`/`Math.max` return a `Number`
  (finite, `+Infinity`, `-Infinity` or `NaN`). `StrictEquals` is `===`.
- `Utils`: a record is a `map<string, int>`. `FindMin` and `FindMax` are
  written as the source computes them. They are proved equal to a reference
  definition: `HasMinimumKey`/`HasMaximumKey` say that a record has the field,
  every record has it, and no record's field is smaller (greater). The
  consequences follow: all ties kept with their multiplicity, input order
  kept, non-empty output exactly for non-empty input when every record has
  the field (a missing field gives `[]`), and idempotence.

Edge cases are modelled as the source behaves, not excluded by preconditions:

- An empty array gives `Math.min()` = `+Infinity` (`Math.max()` = `-Infinity`).
  No integer field equals it, so the result is empty.
- A record that lacks the field reads `undefined`, which `Math.min`/`Math.max`
  coerce to `NaN`. The extremum is then `NaN`, which `===` never matches, so
  the result is empty. The reference definition agrees: when some record
  lacks the field, no record has the minimum (maximum) key.

The finders never modify their input. `map` and `filter` build new arrays,
and the model works on sequence values, so the input is unchanged by
construction.

In JavaScript the arrays `filter` returns hold the input's own record objects,
shared by reference. The model works on values, so it does not track object
identity. Instead it proves where each returned element comes from:
`Sequences.IsSelection` gives, for each result element, its position in the
input, and `FindMinPreservesOrder` and `FindMaxPreservesOrder` establish it
for the finders.

## Model

| member | source | states |
|---|---|---|
| Sequences.Map | src/utils/index.js:6 | `array.map(item => item[key])` gives one value per record, the i-th being the i-th record's field |
| Sequences.Filter | src/utils/index.js:7-9 | `array.filter(...)` returns no more elements than its input, and each one comes from the input and passes the test |
| Sequences.FilterSelectsInOrder | src/utils/index.js:7-9 | the filter result is the input's elements at the strictly increasing list of exactly those positions whose element passes the test |
| Sequences.FilterMultiplicity | src/utils/index.js:7-9 | the filter keeps each passing element as many times as it occurs in the input, and drops every other element |
| Sequences.FilterKeepsAll | src/utils/index.js:7-9 | a filter that every element passes returns its input unchanged |
| Sequences.FilterCongruent | src/utils/index.js:7-9 | two tests that agree on every input element give the same filter result |
| JsMath.MathMin | src/utils/index.js:6 | `Math.min(...)` is `+Infinity` exactly for no arguments and `NaN` exactly when some argument is `undefined`; otherwise it is one of the arguments and at most every argument |
| JsMath.MathMax | src/utils/index.js:13 | `Math.max(...)` is `-Infinity` exactly for no arguments and `NaN` exactly when some argument is `undefined`; otherwise it is one of the arguments and at least every argument |
| Utils.FindMin | src/utils/index.js:5-10 | every returned record comes from the input and holds the minimum field value; the result is no longer than the input; it is empty when the input is empty or some record lacks the field |
| Utils.FindMax | src/utils/index.js:12-17 | every returned record comes from the input and holds the maximum field value; the result is no longer than the input; it is empty when the input is empty or some record lacks the field |
| Utils.FindMinExact | src/utils/index.js:6-9 | filtering on `item[key] === Math.min(...)` gives exactly the filter on "has the minimum field value" |
| Utils.FindMaxExact | src/utils/index.js:13-16 | filtering on `item[key] === Math.max(...)` gives exactly the filter on "has the maximum field value" |
| Utils.FindMinKeepsTies | src/utils/index.js:7-9 | every record with the minimum value occurs in the result as often as in the input; no other record occurs |
| Utils.FindMaxKeepsTies | src/utils/index.js:14-16 | every record with the maximum value occurs in the result as often as in the input; no other record occurs |
| Utils.FindMinPreservesOrder | src/utils/index.js:7-9 | the result is the minimum group listed in the input's relative order |
| Utils.FindMaxPreservesOrder | src/utils/index.js:14-16 | the result is the maximum group listed in the input's relative order |
| Utils.MinimumAttained | src/utils/index.js:6 | when every record has the field and the input is non-empty, some input record holds the minimum |
| Utils.MaximumAttained | src/utils/index.js:13 | when every record has the field and the input is non-empty, some input record holds the maximum |
| Utils.FindMinNonEmpty | src/utils/index.js:6-9 | when every record has the field, `findMin`'s result is non-empty exactly when the input is |
| Utils.FindMaxNonEmpty | src/utils/index.js:13-16 | when every record has the field, `findMax`'s result is non-empty exactly when the input is |
| Utils.FindMinIdempotent | src/utils/index.js:5-10 | applying `findMin` with the same key to its own result returns that result |
| Utils.FindMaxIdempotent | src/utils/index.js:12-17 | applying `findMax` with the same key to its own result returns that result |
| Utils.FindMinExample | src/utils/index.js:5-10 | `findMin([{a:3},{a:1},{a:1}], "a")` is `[{a:1},{a:1}]`: both ties, in order |
| Utils.FindMaxExample | src/utils/index.js:12-17 | `findMax([{a:3},{a:1}], "a")` is `[{a:3}]` |

## Left out

- `isType` (src/utils/index.js:1-3): its result is the JavaScript runtime's own type tag from `Object.prototype.toString`. That is a call into the runtime with no logic of its own to model.
- Non-integer field values: fractions, `-0`, `NaN` or `±Infinity` stored in a record, and non-numeric values such as strings. Records are `map<string, int>`, so a field is an integer or absent.
- Non-array arguments: they have no `map` method, so the call throws a `TypeError`. The model's argument is always a sequence of records.
- `null` and `undefined` elements: reading `item[key]` on them throws a `TypeError`.
- Strings, arrays and functions used as elements: their own `length` and index properties are readable fields (`"fig"["length"]` is `3`), so such an element can hold the extremum and be returned. Records of type `map<string, int>` cannot represent these values.
- Number and boolean elements are not left out. Reading a field on them gives `undefined`, or an inherited method that `Math.min`/`Math.max` coerce to `NaN`. Either way the extremum is `NaN` and the result is `[]`. This is the same outcome as a record without the field, which the model covers: `Field` gives `Undefined`, `Math.min`/`Math.max` give `NaN`, and `FindMin`/`FindMax` ensure `[]` whenever some record lacks the field.
- Holes of a sparse array are not left out either. `map` skips a hole and reads no field, so the hole stays in the mapped array and spreads into `Math.min`/`Math.max` as `undefined`. The extremum is then `NaN` and the result is `[]`, the same outcome as the missing-field path above.
- The engine's limit on how many arguments can be spread into `Math.min`/`Math.max` (a `RangeError` for very large arrays): a resource limit, not logic.
- JsMath.MathMin and JsMath.MathMax fold their arguments from the right, while the engine scans them from the left. The result does not depend on the order.

=== FILE: js_math.dfy ===
/**
 * The slice of JavaScript's value semantics the extremum finders rely on:
 * reading a record field (a number or `undefined`), `Math.min`/`Math.max`
 * over such values, and strict equality `===` against their result.
 * Record fields hold integers; JavaScript's fractional numbers and `-0`
 * are not modelled.
 */
module JsMath {

  /** What `item[key]` yields: `undefined` for an absent key, else an integer. */
  datatype Value = Undefined | Int(i: int)

  /** A JavaScript number as `Math.min`/`Math.max` can produce it. */
  datatype Number = Finite(n: int) | PosInfinity | NegInfinity | NaN

  /** The `ToNumber` coercion `Math.min`/`Math.max` apply to each argument. */
  function ToNumber(v: Value): Number {
    match v
    case Undefined => NaN
    case Int(i) => Finite(i)
  }

  /** `Math.min(a, b)` on two numbers: NaN wins, then -Infinity, and +Infinity loses. */
  function Min2(a: Number, b: Number): Number {
    if a.NaN? || b.NaN? then NaN
    else if a.NegInfinity? || b.NegInfinity? then NegInfinity
    else if a.PosInfinity? then b
    else if b.PosInfinity? then a
    else Finite(if a.n <= b.n then a.n else b.n)
  }

  /** `Math.max(a, b)` on two numbers: NaN wins, then +Infinity, and -Infinity loses. */
  function Max2(a: Number, b: Number): Number {
    if a.NaN? || b.NaN? then NaN
    else if a.PosInfinity? || b.PosInfinity? then PosInfinity
    else if a.NegInfinity? then b
    else if b.NegInfinity? then a
    else Finite(if a.n >= b.n then a.n else b.n)
  }

  /**
   * `Math.min(...args)`: +Infinity for no arguments, NaN as soon as one
   * argument is `undefined`, otherwise the least argument.
   */
  function MathMin(args: seq<Value>): (r: Number)
    ensures r.PosInfinity? <==> args == []
    ensures r.NaN? <==> exists i :: 0 <= i < |args| && args[i].Undefined?
    ensures !r.NegInfinity?
    ensures r.Finite? ==> exists i :: 0 <= i < |args| && args[i] == Int(r.n)
    ensures r.Finite? ==> forall i :: 0 <= i < |args| ==> args[i].Int? && r.n <= args[i].i
  {
    if args == [] then PosInfinity
    else
      var rest := MathMin(args[1..]);
      assert forall i :: 1 <= i < |args| ==> args[i] == args[1..][i - 1];
      Min2(ToNumber(args[0]), rest)
  }

  /**
   * `Math.max(...args)`: -Infinity for no arguments, NaN as soon as one
   * argument is `undefined`, otherwise the greatest argument.
   */
  function MathMax(args: seq<Value>): (r: Number)
    ensures r.NegInfinity? <==> args == []
    ensures r.NaN? <==> exists i :: 0 <= i < |args| && args[i].Undefined?
    ensures !r.PosInfinity?
    ensures r.Finite? ==> exists i :: 0 <= i < |args| && args[i] == Int(r.n)
    ensures r.Finite? ==> forall i :: 0 <= i < |args| ==> args[i].Int? && args[i].i <= r.n
  {
    if args == [] then NegInfinity
    else
      var rest := MathMax(args[1..]);
      assert forall i :: 1 <= i < |args| ==> args[i] == args[1..][i - 1];
      Max2(ToNumber(args[0]), rest)
  }

  /** `v === n` for a field value and a number: NaN and the infinities equal no integer. */
  predicate StrictEquals(v: Value, n: Number) {
    v.Int? && n.Finite? && v.i == n.n
  }
}

=== FILE: sequences.dfy ===
/**
 * The two array builtins the extremum finders are made of, on immutable
 * sequences: `Array.prototype.map` and `Array.prototype.filter`. Both build
 * a new sequence and leave their argument as it was, which value semantics
 * makes automatic here.
 */
module Sequences {

  /** `s.map(f)`: one result per element, in the same order. */
  function Map<T, U>(s: seq<T>, f: T -> U): (r: seq<U>)
    ensures |r| == |s|
    ensures forall i :: 0 <= i < |s| ==> r[i] == f(s[i])
  {
    if s == [] then [] else [f(s[0])] + Map(s[1..], f)
  }

  /** `s.filter(p)`: the elements that pass `p`, in their original order. */
  function Filter<T>(s: seq<T>, p: T -> bool): (r: seq<T>)
    ensures |r| <= |s|
    ensures forall x :: x in r ==> x in s && p(x)
  {
    if s == [] then []
    else if p(s[0]) then [s[0]] + Filter(s[1..], p)
    else Filter(s[1..], p)
  }

  /** The indices at or after `lo` whose element passes `p`, in increasing order. */
  function PositionsFrom<T>(s: seq<T>, p: T -> bool, lo: nat): (idx: seq<nat>)
    requires lo <= |s|
    ensures forall j :: 0 <= j < |idx| ==> lo <= idx[j] < |s| && p(s[idx[j]])
    ensures forall j, k :: 0 <= j < k < |idx| ==> idx[j] < idx[k]
    ensures forall i :: lo <= i < |s| && p(s[i]) ==> i in idx
    decreases |s| - lo
  {
    if lo == |s| then []
    else if p(s[lo]) then [lo] + PositionsFrom(s, p, lo + 1)
    else PositionsFrom(s, p, lo + 1)
  }

  /**
   * `idx` lists, in strictly increasing order, exactly the positions of `s`
   * whose element passes `p`, and `r` is the elements of `s` at those
   * positions: `r` is the order-preserving selection of `s` by `p`.
   */
  ghost predicate IsSelection<T>(r: seq<T>, s: seq<T>, p: T -> bool, idx: seq<nat>) {
    && |idx| == |r|
    && (forall j :: 0 <= j < |idx| ==> idx[j] < |s| && r[j] == s[idx[j]] && p(s[idx[j]]))
    && (forall j, k :: 0 <= j < k < |idx| ==> idx[j] < idx[k])
    && (forall i :: 0 <= i < |s| && p(s[i]) ==> i in idx)
  }

  ghost predicate SelectsInOrder<T>(r: seq<T>, s: seq<T>, p: T -> bool) {
    exists idx :: IsSelection(r, s, p, idx)
  }

  lemma {:induction false} FilterAtPositionsFrom<T>(s: seq<T>, p: T -> bool, lo: nat)
    requires lo <= |s|
    ensures |Filter(s[lo..], p)| == |PositionsFrom(s, p, lo)|
    ensures forall j :: 0 <= j < |PositionsFrom(s, p, lo)| ==>
              Filter(s[lo..], p)[j] == s[PositionsFrom(s, p, lo)[j]]
    decreases |s| - lo
  {
    if lo < |s| {
      FilterAtPositionsFrom(s, p, lo + 1);
      assert s[lo..][0] == s[lo];
      assert s[lo..][1..] == s[lo + 1..];
    }
  }

  /** Filtering keeps exactly the passing elements and keeps their relative order. */
  lemma FilterSelectsInOrder<T>(s: seq<T>, p: T -> bool)
    ensures SelectsInOrder(Filter(s, p), s, p)
  {
    var idx := PositionsFrom(s, p, 0);
    FilterAtPositionsFrom(s, p, 0);
    assert s[0..] == s;
    assert IsSelection(Filter(s, p), s, p, idx);
  }

  /** Every passing element is kept as many times as it occurs; no other element is kept. */
  lemma {:induction false} FilterMultiplicity<T>(s: seq<T>, p: T -> bool, x: T)
    ensures multiset(Filter(s, p))[x] == if p(x) then multiset(s)[x] else 0
  {
    if s != [] {
      FilterMultiplicity(s[1..], p, x);
      assert s == [s[0]] + s[1..];
    }
  }

  /** A filter that every element passes returns its input unchanged. */
  lemma {:induction false} FilterKeepsAll<T>(s: seq<T>, p: T -> bool)
    requires forall x :: x in s ==> p(x)
    ensures Filter(s, p) == s
  {
    if s != [] {
      assert forall x :: x in s[1..] ==> x in s;
      FilterKeepsAll(s[1..], p);
    }
  }

  /** Two tests that agree on every element of `s` select the same elements. */
  lemma {:induction false} FilterCongruent<T>(s: seq<T>, p: T -> bool, q: T -> bool)
    requires forall x :: x in s ==> p(x) == q(x)
    ensures Filter(s, p) == Filter(s, q)
  {
    if s != [] {
      assert forall x :: x in s[1..] ==> x in s;
      FilterCongruent(s[1..], p, q);
    }
  }
}

=== FILE: utils.dfy ===
/**
 * The extremum-group finders `findMin` and `findMax` of src/utils/index.js.
 * Each projects a named field out of every record, takes the minimum
 * (maximum) with `Math.min` (`Math.max`), and keeps, in their original
 * order, the records whose field is strictly equal to that extremum.
 */
module Utils {
  import opened JsMath
  import opened Sequences

  /** A record: field names mapped to their (integer) values. */
  type Record = map<string, int>

  /** `item[key]`. */
  function Field(item: Record, key: string): Value {
    if key in item then Int(item[key]) else Undefined
  }

  predicate AllHaveKey(records: seq<Record>, key: string) {
    forall j :: 0 <= j < |records| ==> key in records[j]
  }

  /** The filter callback `item => item[key] === target`. */
  function MatchesKey(key: string, target: Number): Record -> bool {
    item => StrictEquals(Field(item, key), target)
  }

  // ---------------------------------------------------------------------
  // The reference definitions: a record belongs to the minimum (maximum)
  // group when it has the field, every record has it, and no
  // record's field is smaller (greater).

  predicate HasMinimumKey(records: seq<Record>, key: string, x: Record) {
    key in x && AllHaveKey(records, key) &&
    forall j :: 0 <= j < |records| ==> x[key] <= records[j][key]
  }

  predicate HasMaximumKey(records: seq<Record>, key: string, x: Record) {
    key in x && AllHaveKey(records, key) &&
    forall j :: 0 <= j < |records| ==> records[j][key] <= x[key]
  }

  function MinimumTest(records: seq<Record>, key: string): Record -> bool {
    x => HasMinimumKey(records, key, x)
  }

  function MaximumTest(records: seq<Record>, key: string): Record -> bool {
    x => HasMaximumKey(records, key, x)
  }

  // ---------------------------------------------------------------------
  // The finders, as the source computes them.

  /**
   * `findMin(array, key)`. An empty array gives `Math.min()` = +Infinity and
   * a record without the field gives NaN; neither equals any field, so both
   * give an empty result.
   */
  function FindMin(records: seq<Record>, key: string): (r: seq<Record>)
    ensures |r| <= |records|
    ensures forall x :: x in r ==> x in records && HasMinimumKey(records, key, x)
    ensures !AllHaveKey(records, key) ==> r == []
  {
    var min := MathMin(Map(records, item => Field(item, key)));
    var r := Filter(records, MatchesKey(key, min));
    assert r != [] ==> r[0] in r;
    r
  }

  /** `findMax(array, key)`: as `FindMin`, with `Math.max` (-Infinity when empty). */
  function FindMax(records: seq<Record>, key: string): (r: seq<Record>)
    ensures |r| <= |records|
    ensures forall x :: x in r ==> x in records && HasMaximumKey(records, key, x)
    ensures !AllHaveKey(records, key) ==> r == []
  {
    var max := MathMax(Map(records, item => Field(item, key)));
    var r := Filter(records, MatchesKey(key, max));
    assert r != [] ==> r[0] in r;
    r
  }

  // ---------------------------------------------------------------------
  // FindMin: exact characterisation and its consequences.

  /** The filter on `item[key] === min` selects exactly the minimum group. */
  lemma FindMinExact(records: seq<Record>, key: string)
    ensures FindMin(records, key) == Filter(records, MinimumTest(records, key))
  {
    var args := Map(records, item => Field(item, key));
    var min := MathMin(args);
    forall x | x in records
      ensures MatchesKey(key, min)(x) == MinimumTest(records, key)(x)
    {
      if HasMinimumKey(records, key, x) {
        var i :| 0 <= i < |args| && args[i] == Int(min.n);
        var k :| 0 <= k < |records| && records[k] == x;
        assert args[k] == Int(x[key]);
      }
    }
    FilterCongruent(records, MatchesKey(key, min), MinimumTest(records, key));
  }

  /** All ties are kept, each as often as it occurs in the input; nothing else is. */
  lemma FindMinKeepsTies(records: seq<Record>, key: string, x: Record)
    ensures multiset(FindMin(records, key))[x] ==
            if HasMinimumKey(records, key, x) then multiset(records)[x] else 0
  {
    FindMinExact(records, key);
    FilterMultiplicity(records, MinimumTest(records, key), x);
  }

  /** The result lists the minimum group in the input's order. */
  lemma FindMinPreservesOrder(records: seq<Record>, key: string)
    ensures SelectsInOrder(FindMin(records, key), records, MinimumTest(records, key))
  {
    FindMinExact(records, key);
    FilterSelectsInOrder(records, MinimumTest(records, key));
  }

  /** When every record has the field, the minimum is attained by some record. */
  lemma MinimumAttained(records: seq<Record>, key: string)
    requires AllHaveKey(records, key) && records != []
    ensures exists i :: 0 <= i < |records| && HasMinimumKey(records, key, records[i])
  {
    var args := Map(records, item => Field(item, key));
    var min := MathMin(args);
    var i :| 0 <= i < |args| && args[i] == Int(min.n);
    assert HasMinimumKey(records, key, records[i]);
  }

  /** With the field everywhere, the result is empty exactly when the input is. */
  lemma FindMinNonEmpty(records: seq<Record>, key: string)
    requires AllHaveKey(records, key)
    ensures FindMin(records, key) != [] <==> records != []
  {
    if records != [] {
      MinimumAttained(records, key);
      var i :| 0 <= i < |records| && HasMinimumKey(records, key, records[i]);
      FindMinKeepsTies(records, key, records[i]);
      assert records[i] in multiset(records);
    }
  }

  lemma FindMinIdempotent(records: seq<Record>, key: string)
    ensures FindMin(FindMin(records, key), key) == FindMin(records, key)
  {
    var r := FindMin(records, key);
    forall x | x in r
      ensures HasMinimumKey(r, key, x)
    {
      forall j | 0 <= j < |r|
        ensures key in r[j] && x[key] <= r[j][key]
      {
        assert r[j] in r;
      }
    }
    FilterKeepsAll(r, MinimumTest(r, key));
    FindMinExact(r, key);
  }

  // ---------------------------------------------------------------------
  // FindMax: the same facts for the maximum group.

  lemma FindMaxExact(records: seq<Record>, key: string)
    ensures FindMax(records, key) == Filter(records, MaximumTest(records, key))
  {
    var args := Map(records, item => Field(item, key));
    var max := MathMax(args);
    forall x | x in records
      ensures MatchesKey(key, max)(x) == MaximumTest(records, key)(x)
    {
      if HasMaximumKey(records, key, x) {
        var i :| 0 <= i < |args| && args[i] == Int(max.n);
        var k :| 0 <= k < |records| && records[k] == x;
        assert args[k] == Int(x[key]);
      }
    }
    FilterCongruent(records, MatchesKey(key, max), MaximumTest(records, key));
  }

  lemma FindMaxKeepsTies(records: seq<Record>, key: string, x: Record)
    ensures multiset(FindMax(records, key))[x] ==
            if HasMaximumKey(records, key, x) then multiset(records)[x] else 0
  {
    FindMaxExact(records, key);
    FilterMultiplicity(records, MaximumTest(records, key), x);
  }

  lemma FindMaxPreservesOrder(records: seq<Record>, key: string)
    ensures SelectsInOrder(FindMax(records, key), records, MaximumTest(records, key))
  {
    FindMaxExact(records, key);
    FilterSelectsInOrder(records, MaximumTest(records, key));
  }

  lemma MaximumAttained(records: seq<Record>, key: string)
    requires AllHaveKey(records, key) && records != []
    ensures exists i :: 0 <= i < |records| && HasMaximumKey(records, key, records[i])
  {
    var args := Map(records, item => Field(item, key));
    var max := MathMax(args);
    var i :| 0 <= i < |args| && args[i] == Int(max.n);
    assert HasMaximumKey(records, key, records[i]);
  }

  lemma FindMaxNonEmpty(records: seq<Record>, key: string)
    requires AllHaveKey(records, key)
    ensures FindMax(records, key) != [] <==> records != []
  {
    if records != [] {
      MaximumAttained(records, key);
      var i :| 0 <= i < |records| && HasMaximumKey(records, key, records[i]);
      FindMaxKeepsTies(records, key, records[i]);
      assert records[i] in multiset(records);
    }
  }

  lemma FindMaxIdempotent(records: seq<Record>, key: string)
    ensures FindMax(FindMax(records, key), key) == FindMax(records, key)
  {
    var r := FindMax(records, key);
    forall x | x in r
      ensures HasMaximumKey(r, key, x)
    {
      forall j | 0 <= j < |r|
        ensures key in r[j] && r[j][key] <= x[key]
      {
        assert r[j] in r;
      }
    }
    FilterKeepsAll(r, MaximumTest(r, key));
    FindMaxExact(r, key);
  }

  // ---------------------------------------------------------------------
  // Worked examples.

  lemma FindMinExample()
    ensures FindMin([map["a" := 3], map["a" := 1], map["a" := 1]], "a")
            == [map["a" := 1], map["a" := 1]]
  {
  }

  lemma FindMaxExample()
    ensures FindMax([map["a" := 3], map["a" := 1]], "a") == [map["a" := 3]]
  {
  }
}
